=== FILE: README.md ===
# TerminalChat, modelled in Dafny

TerminalChat (the `gupsup` repository) is a terminal chat: users on a
shared channel code see each other's lines. This project models its core:

- **the WebSocket server** (`websocket_server/main.py`): the global
  `channels` and `users` tables, the per-connection endpoint (join, relay
  each frame, leave) and `broadcast`. It is the `Hub` class in module
  `WebSocketServer`; a ghost `joined` table records each connection's
  channel so that the invariant "every live connection is listed exactly
  once, under its own channel" can be stated and kept by every method;
- **the raw-socket server** (`server/server.py`): the `channels` and
  `clients` tables, the `handle` loop with its `/join` and `/msg`
  commands, and the `broadcast` that passes over clients whose `send`
  fails. The pure functions `Step` and `Run` in module `SocketServer`
  say what one pass and a whole sequence of passes do; the `Server` class
  carries out the same loop imperatively and is proved to follow `Run`;
- **the client configuration** (`terminalchat/config.py`): module
  `Config`, one function per class method, the environment given as a map;
- **the client set-up** (`terminalchat/client.py`): module `Client`, the
  straight-line part of `run_client` (server, channel code, name, URI) and
  the line format `chat` sends.

Shared pieces: `Wire` (connections as identities, one record per send,
the `"<name>: <body>"` line and its parser), `PyStr` (the Python `str`
and `int` built-ins the code calls: `strip`, `split`, `lower`, `upper`,
`startswith`, slicing and `int()`; `str()` of an integer is there only to
state that `int()` reads back what Python prints), and `Wrappers`
(`Option`).

Inputs are parameters: the answers typed at the three prompts, the
positions `random.choices` draws, the environment, the frames a
connection receives. A send is recorded as a `Delivery(to, text)`, so
every broadcast is specified by the exact sequence of sends it makes.
For the raw-socket server each input is an `Event` that also names the
clients whose `send` fails while it is handled; a failed `recv` or
`decode` is an event without data.

Three things the proofs make plain about the code as written:

- on the raw-socket server an empty read, which is what `recv` returns
  once the peer has closed, starts with neither `/join` nor `/msg`, so it
  is ignored and the handler keeps going (`SocketServer.StepOther`). Only
  an exception ends the handler, and an ended handler never removes its
  client from `channels` or `clients` (`SocketServer.RunGrows`);
- on the WebSocket server, a connection that leaves is taken out of its
  channel before the leave notice goes out, so the leaver does not get it.
  Joiners and senders do get their own notice and their own lines. Only
  `WebSocketDisconnect` runs that removal: an endpoint ended by any other
  exception leaves its connection listed in its channel and in `users`
  (`WebSocketServer.Hub.EndpointAborted`), and later broadcasts still go
  to it;
- the client connects to `/ws/<code>` (`Client.Uri`), one path segment,
  while the WebSocket route is `/ws/{channel}/{username}`. The client also
  puts the name in front of each line (`Wire.ChatLineRoundTrip`), and
  the WebSocket server puts it in front again (`WebSocketServer.Hub.Receive`).
  Client and server are therefore not modelled as talking to each other.

## Model

| member | source | states |
|---|---|---|
| Config.ServerAddress | terminalchat/config.py:17-19 | the `TERMINALCHAT_SERVER` value whenever it is set, whatever it is; the public server `terminalchat-server-1.onrender.com:443` when it is not |
| Config.MaxReconnectAttempts | terminalchat/config.py:21-27 | when `int()` reads an integer from `TERMINALCHAT_MAX_RECONNECT` the result is that integer; when it rejects the value, or the variable is unset, the result is 3 |
| Config.MaxReconnectAttemptsReadsBack | terminalchat/config.py:24-25 | any integer Python can print (at most 4300 digits) is read back as that integer |
| Config.MaxReconnectAttemptsDigitLimit | terminalchat/config.py:24-27 | a run of more than 4300 digits is refused by `int()` and gives 3 |
| Config.MaxReconnectAttemptsFallsBack | terminalchat/config.py:26-27 | a value `int()` rejects gives the default 3 instead of an error |
| Config.MaxReconnectAttemptsRefusesSeparator | terminalchat/config.py:24-27 | a value starting with one of U+001C to U+001F gives 3: `int()` does not skip these characters, though `strip()` would |
| Config.WebSocketConfig | terminalchat/config.py:29-36 | ping interval 30, ping timeout 15, close timeout 15, independent of the environment; the ping timeout is shorter than the interval |
| Config.DebugModeExactly | terminalchat/config.py:38-41 | debug mode is on if and only if `TERMINALCHAT_DEBUG` is set and equals one of `true`, `1`, `yes`, `on` ignoring case |
| Config.LogLevel | terminalchat/config.py:43-47 | the level is always one of DEBUG, INFO, WARNING, ERROR, CRITICAL |
| Config.DebugMode | terminalchat/config.py:38-41 | debug mode is off when `TERMINALCHAT_DEBUG` is unset, and on only for a set value of one to four characters (`Config.DebugModeExactly` gives the exact condition) |
| Config.UpperMatchesLevel | terminalchat/config.py:46-47 | upper-casing a string gives a level name if and only if the string matches that name ignoring case |
| Config.LogLevelIgnoresCase | terminalchat/config.py:46-47 | any casing of a level name selects that level |
| Config.LogLevelOtherwiseWarning | terminalchat/config.py:43-47 | unset, or matching no level name, gives WARNING; any other level is the one the variable spells ignoring case |
| PyStr.Strip | terminalchat/client.py:23 | the result is a slice of the input with only whitespace cut from either end; it is empty exactly when the input is all whitespace, otherwise it starts and ends with non-whitespace; input with no whitespace at either end is returned unchanged |
| PyStr.Split | server/server.py:12 | every word is non-empty and holds no whitespace; there are no words exactly when the input is all whitespace |
| PyStr.SplitInterleave | server/server.py:12 | words with any whitespace runs before, between and after them split back into exactly those words |
| PyStr.SplitDecomposes | server/server.py:12 | every string is its words with whitespace runs before, between and after them, so the words are its maximal non-whitespace runs, in order |
| PyStr.ParseInt | terminalchat/config.py:25 | `int()`: nothing but whitespace gives an error; an accepted value, once its whitespace is trimmed, starts with a sign or a digit and ends with a digit |
| PyStr.ParseIntSkipsSpace | terminalchat/config.py:25 | a number surrounded by the whitespace `int()` skips (space, `\t` to `\r` and non-ASCII whitespace) reads as the bare number |
| PyStr.ParseIntRefusesSeparator | terminalchat/config.py:25-27 | a leading U+001C to U+001F character makes `int()` fail |
| PyStr.ParseIntToStr | terminalchat/config.py:25 | `int(str(n)) == n` for every integer `n` that `str()` prints (at most 4300 digits), negative ones included |
| PyStr.ParseTooManyDigits | terminalchat/config.py:25 | `int()` refuses a run of more than 4300 digits |
| Wire.FanOut | websocket_server/main.py:38-40 | one send per listed connection, in list order, each carrying the message |
| Wire.Surviving | server/server.py:23-28 | each connection is reached as often as it is listed, unless its send fails, then never |
| Wire.SurvivorReached | server/server.py:24-28 | a connection whose send works is reached whatever failed before it in the list |
| Wire.ChatLine | terminalchat/client.py:19 | `f"{name}: {body}"`: the name, then ": " at the name's length, then the body, and nothing else |
| Wire.ChatLineRoundTrip | terminalchat/client.py:19 | a name without ": " and the message are read back unchanged from `"<name>: <message>"` |
| Client.ResolveServer | terminalchat/client.py:23-25 | a blank answer gives the public server; any other answer gives the answer stripped; the result is never empty and has nothing left to strip |
| Client.ResolveServerMatchesConfig | terminalchat/client.py:24-25 | the client's own fallback literal is the same server as the configuration's `DEFAULT_SERVER`, though `client.py` does not import `Config` |
| Client.GenerateCode | terminalchat/client.py:28-29 | a fresh code has six characters, each a lower-case ASCII letter or an ASCII digit |
| Client.GenerateCodeOnto | terminalchat/client.py:29 | every six-character code over `[a-z0-9]` can be drawn |
| Client.GenerateCodeInjective | terminalchat/client.py:29 | different draws give different codes |
| Client.ChannelCode | terminalchat/client.py:26-32 | `new` gives a generated code; any other answer is the channel code as typed, stripped |
| Client.NewInAnyCase | terminalchat/client.py:27 | `new` is recognised in every mix of cases |
| Client.Uri | terminalchat/client.py:35-38 | `ws://` exactly for servers starting `localhost` or `127.0.0.1`, `wss://` exactly for all others; then the server, `/ws/` and the code |
| Client.RunClient | terminalchat/client.py:21-39 | the address is `wss://` exactly when the resolved server is not local and `ws://` exactly when it is, followed by that server and ending in `/ws/<code>`; the code is six characters over `[a-z0-9]` for `new` in any case and the stripped answer otherwise; the name is the stripped answer |
| Client.DefaultServerIsSecure | terminalchat/client.py:23-38 | taking the default server always means a `wss://` connection |
| WebSocketServer.IndexOf | websocket_server/main.py:34 | the position of the first occurrence |
| WebSocketServer.RemoveFirst | websocket_server/main.py:34 | `list.remove`: the list loses exactly one copy of the connection, its first, and the other entries keep their order |
| WebSocketServer.RemoveOnly | websocket_server/main.py:34 | removing a connection listed once leaves exactly the other connections |
| WebSocketServer.JoinConsistent | websocket_server/main.py:22-25 | recording a new connection and appending it to its channel keeps every live connection listed exactly once, under its own channel |
| WebSocketServer.LeaveConsistent | websocket_server/main.py:33-36 | removing a leaving connection from its channel list and from `users` keeps the tables consistent; the list then holds exactly the other members |
| WebSocketServer.JoinThenLeave | websocket_server/main.py:20-36 | a connection that joins and leaves with no one else acting puts `users` and the other channels back as they were, and its channel's list back as it was, except that a channel met for the first time keeps an empty entry |
| WebSocketServer.Hub.constructor | websocket_server/main.py:16-17 | both tables start empty, and consistent |
| WebSocketServer.Hub.Broadcast | websocket_server/main.py:38-40 | one send to each member of the channel, in list order; a connection receives the message if and only if it is a member |
| WebSocketServer.Hub.Join | websocket_server/main.py:21-27 | the name is recorded, the connection is appended at the end of its channel (created if new), the tables stay consistent, and the whole channel, joiner included, is told |
| WebSocketServer.Hub.Receive | websocket_server/main.py:31-32 | a frame goes to the whole channel as `"<name>: <frame>"`; the sender gets its own line |
| WebSocketServer.Hub.RelayFrames | websocket_server/main.py:30-32 | the frames are relayed in order, each to the whole channel |
| WebSocketServer.Hub.Disconnect | websocket_server/main.py:33-36 | the connection leaves its channel list (the list stays, perhaps empty) and `users`; the leave notice reaches exactly the other members |
| WebSocketServer.Hub.Endpoint | websocket_server/main.py:19-36 | one whole endpoint run: the join notice, every relayed frame and the leave notice, in that order; the tables end as they began, except that a channel met for the first time keeps an empty entry |
| WebSocketServer.Hub.EndpointAborted | websocket_server/main.py:19-32 | an endpoint ended by an exception other than a disconnect: the join notice and every relayed frame go out, and the connection stays in its channel list and in `users` |
| SocketServer.ParseJoinWords | server/server.py:11-12 | a line starting `/join`, with any whitespace between and after its words, is a join exactly when it has three words (the channel is the second, the name the third) and malformed for any other count |
| SocketServer.ParseJoinNewline | server/server.py:11-12 | `/join <channel> <name>` followed by a newline still joins that channel under that name |
| SocketServer.Parse | server/server.py:11-18 | an input is a join or a malformed join exactly when it starts with `/join`, a join exactly when it also splits into three words (channel second, name third), a message exactly when it starts with `/msg` but not `/join` (the text everything from the sixth character on), and anything else otherwise |
| SocketServer.Step | server/server.py:9-21 | one pass of the loop: a failed read ends the handler; an ended handler changed no table and sent nothing; names and channels are never removed (`StepJoin`, `StepMsg` and the other `Step` lemmas give each case) |
| SocketServer.Run | server/server.py:6-21 | the loop over a sequence of inputs: an ended handler does nothing more; names and channels are never removed |
| SocketServer.ParseMsgLine | server/server.py:17-18 | `/msg <text>` carries exactly `<text>` |
| SocketServer.StepJoin | server/server.py:11-16 | a good `/join` records the name, appends the client at the end of its channel (created if new), moves the handler to that channel, and the joiner is told unless its own send fails |
| SocketServer.StepMalformedJoin | server/server.py:11-21 | a `/join` with the wrong word count ends the handler with nothing changed and nothing sent |
| SocketServer.StepMsg | server/server.py:17-19 | `/msg` from a named client changes no table and sends `"<name>: <text>"` to every member of the handler's channel whose send works |
| SocketServer.StepMsgBeforeJoin | server/server.py:17-21 | `/msg` from a client with no name ends the handler and sends nothing |
| SocketServer.StepOther | server/server.py:8-19 | any other input, the empty read included, changes nothing, sends nothing and the handler goes on |
| SocketServer.BroadcastTolerant | server/server.py:23-28 | a failed send does not stop the broadcast: every member whose send works is reached |
| SocketServer.RunGrows | server/server.py:6-21 | a handler never removes anything: names stay and each channel list only grows at its end |
| SocketServer.RunKeepsAgreement | server/server.py:6-16 | the handler's `channel` is set exactly when its client has a name, and the client is then in that channel |
| SocketServer.MsgAfterJoin | server/server.py:13-19 | after a `/join`, `/msg` never ends the handler and the sender hears its own line unless its send fails |
| SocketServer.Server.constructor | server/server.py:3-4 | both tables start empty |
| SocketServer.Server.Broadcast | server/server.py:23-28 | one send to each member of the channel whose send works, in list order; no channel yet means no sends |
| SocketServer.Server.Serve | server/server.py:9-21 | one pass of the loop leaves the tables, the handler and the sends exactly as `Step` says |
| SocketServer.Server.Handle | server/server.py:6-21 | the whole loop over the inputs ends with the tables, handler and sends that `Run` gives, and the tables only grew |

## Left out

- Encryption, key derivation, reconnection with back-off, image sharing and the client session states: none of these is in the modelled files.
- `server/server.py:30-37` (`start`: binding port 5000, accepting, one thread per client) is not modelled. The threads' interleaving is not modelled either: each handler is modelled running alone on the shared tables.
- `websocket_server/main.py:1-14` and `42-43` (FastAPI, CORS, uvicorn start-up) are not modelled. Neither is the asynchronous interleaving of endpoints, which are modelled one at a time.
- The `receive` task and the input loop of `chat` (`terminalchat/client.py:4-18`) are terminal and network I/O. Only the line `chat` sends is modelled.
- The prompts and messages printed by `run_client`, and `asyncio.run(chat(...))`, are output and transport. `RunClient` ends with the connection target.
- `random.choices` is represented by the positions it draws, given as a parameter.
- The endless `while True` loops are modelled over a finite sequence of inputs.
- The setup, test and helper scripts (`setup.py`, `dev_setup.py`, `production_check.py`, `quick_websocket_test.py`, `test_terminalchat.py`) and `terminalchat/main.py` are not part of this model.
- `recv(1024)` framing and partial `send`s are not modelled. Each event is one whole decoded input, and each send delivers the whole message or fails.
- WebSocketServer.Hub.Broadcast: every `send_text` is taken to succeed. The model does not capture a failing send raising out of `broadcast` and ending the endpoint.
- WebSocketServer.Hub.Endpoint: states the run of one connection with no other connection acting between its steps. Other connections do act in between when the server runs.
- WebSocketServer.Hub.Endpoint: covers the endpoint that ends with `WebSocketDisconnect`. An endpoint ended by any other exception is `Hub.EndpointAborted`; which exception a failure raises is not modelled.
- WebSocketServer.Hub.Disconnect: requires the connection to be live in the channel it joined, which the endpoint guarantees. An endpoint whose list entry was removed by someone else is not modelled.
- Config.DebugModeExactly: case is ignored for ASCII letters only. Python's `lower()` also folds non-ASCII letters.
- Config.LogLevel: `upper()` is modelled for ASCII letters only. Python also maps some non-ASCII letters onto level names (`"ınfo".upper() == "INFO"`).
- Config.LogLevelIgnoresCase: ASCII case only, as for `Config.LogLevel`.
- Config.UpperMatchesLevel: ASCII case only, as for `Config.LogLevel`. With Python's `upper()`, `"ınfo"` upper-cases to `INFO` without matching it ignoring ASCII case.
- Config.LogLevelOtherwiseWarning: ASCII case only, as for `Config.LogLevel`.
- Config.MaxReconnectAttempts: `int()` is modelled for ASCII digits only. Python also accepts other Unicode decimal digits.
- PyStr.ParseInt: the 4300-digit limit is CPython's default from 3.11, and from 3.7.14, 3.8.14, 3.9.14 and 3.10.7 on. Earlier releases have no limit, and `PYTHONINTMAXSTRDIGITS` or `sys.set_int_max_str_digits` can change it; the model fixes the default.
- Client.NewInAnyCase: ASCII case only.
- Lone surrogates: a Dafny `string` cannot hold them, while a Python `str` can (an environment value decoded with `surrogateescape`, say); such strings are not modelled.

=== FILE: client.dfy ===
/**
 * The connection set-up of `run_client` in `terminalchat/client.py` and the
 * payload `chat` sends. The three `input()` answers and the draws of
 * `random.choices` are parameters.
 */
module Client {
  import opened PyStr
  import Config

  /** The public server `run_client` falls back to, written out in the client itself. */
  const DefaultServer: string := "terminalchat-server-1.onrender.com:443"

  /** `string.ascii_lowercase + string.digits`: `a` to `z`, then `0` to `9`. */
  const Alphabet: string := AlphabetString()

  function AlphabetString(): (s: string)
    ensures |s| == AlphabetSize && forall k :: 0 <= k < AlphabetSize ==> s[k] == AlphabetChar(k)
  {
    seq(AlphabetSize, k requires 0 <= k < AlphabetSize => AlphabetChar(k))
  }

  function AlphabetChar(k: int): char
    requires 0 <= k < 36
  {
    if k < 26 then ('a' as int + k) as char else ('0' as int + (k - 26)) as char
  }
  const AlphabetSize: nat := 36
  const CodeLength: nat := 6

  predicate IsCodeChar(c: char) {
    'a' <= c <= 'z' || '0' <= c <= '9'
  }

  /** What `random.choices(Alphabet, k=6)` may draw: six positions in the alphabet. */
  predicate ValidDraws(draws: seq<nat>) {
    |draws| == CodeLength && forall i :: 0 <= i < |draws| ==> draws[i] < AlphabetSize
  }

  /** The server typed at the prompt, stripped; the public server when nothing was typed. */
  function ResolveServer(entry: string): (server: string)
    ensures server != [] && Strip(server) == server
    ensures Blank(entry) ==> server == DefaultServer
    ensures !Blank(entry) ==> server == Strip(entry)
  {
    var s := Strip(entry);
    if s == [] then DefaultServerStripped(); DefaultServer else s
  }

  lemma DefaultServerStripped()
    ensures DefaultServer != [] && Strip(DefaultServer) == DefaultServer
  {
    var d := DefaultServer;
    assert d[0] == 't' && d[|d| - 1] == '3';
    assert !IsSpace(d[0]) && !IsSpace(d[|d| - 1]);
  }

  /**
   * The client's fallback, a literal of its own, is the same server the
   * configuration falls back to.
   */
  lemma ResolveServerMatchesConfig(entry: string, env: Config.Env)
    requires Blank(entry) && Config.ServerVar !in env
    ensures ResolveServer(entry) == Config.ServerAddress(env)
  {
    assert DefaultServer == Config.DefaultServer;
  }

  lemma AlphabetChars(k: nat)
    requires k < |Alphabet|
    ensures IsCodeChar(Alphabet[k])
  {
  }

  /** A fresh channel code: the drawn characters of the alphabet. */
  function GenerateCode(draws: seq<nat>): (code: string)
    requires ValidDraws(draws)
    ensures |code| == CodeLength
    ensures forall i :: 0 <= i < |code| ==> IsCodeChar(code[i])
  {
    DrawnCharsAreCodeChars(draws);
    seq(CodeLength, i requires 0 <= i < CodeLength => Alphabet[draws[i]])
  }

  lemma DrawnCharsAreCodeChars(draws: seq<nat>)
    requires ValidDraws(draws)
    ensures forall i :: 0 <= i < CodeLength ==> IsCodeChar(Alphabet[draws[i]])
  {
    forall i | 0 <= i < CodeLength ensures IsCodeChar(Alphabet[draws[i]]) {
      AlphabetChars(draws[i]);
    }
  }

  /** Where `c` stands in the alphabet. */
  function AlphabetIndex(c: char): (k: nat)
    requires IsCodeChar(c)
    ensures k < |Alphabet| && Alphabet[k] == c
  {
    if 'a' <= c <= 'z' then c as int - 'a' as int else 26 + (c as int - '0' as int)
  }

  /** Every six-character code over `[a-z0-9]` can be generated: the code space is all of them. */
  lemma GenerateCodeOnto(code: string)
    requires |code| == CodeLength && forall i :: 0 <= i < |code| ==> IsCodeChar(code[i])
    ensures exists draws :: ValidDraws(draws) && GenerateCode(draws) == code
  {
    var draws := seq(CodeLength, i requires 0 <= i < CodeLength => AlphabetIndex(code[i]));
    assert ValidDraws(draws);
    assert GenerateCode(draws) == code;
  }

  /** Different draws give different codes, so no two draws collide. */
  lemma GenerateCodeInjective(d1: seq<nat>, d2: seq<nat>)
    requires ValidDraws(d1) && ValidDraws(d2) && GenerateCode(d1) == GenerateCode(d2)
    ensures d1 == d2
  {
    forall i | 0 <= i < CodeLength ensures d1[i] == d2[i] {
      assert Alphabet[d1[i]] == GenerateCode(d1)[i] == GenerateCode(d2)[i] == Alphabet[d2[i]];
      AlphabetDistinct(d1[i], d2[i]);
    }
  }

  lemma AlphabetDistinct(j: nat, k: nat)
    requires j < |Alphabet| && k < |Alphabet| && Alphabet[j] == Alphabet[k]
    ensures j == k
  {
  }

  /** The stripped channel prompt answer asks for a new channel: `choice.lower() == "new"`. */
  predicate WantsNewChannel(entry: string) {
    Lower(Strip(entry)) == "new"
  }

  /** The channel code: freshly generated for `new` in any case, else the stripped answer as it is. */
  function ChannelCode(entry: string, draws: seq<nat>): (code: string)
    requires ValidDraws(draws)
    ensures WantsNewChannel(entry) ==> |code| == CodeLength && forall i :: 0 <= i < |code| ==> IsCodeChar(code[i])
    ensures !WantsNewChannel(entry) ==> code == Strip(entry)
  {
    var choice := Strip(entry);
    if Lower(choice) == "new" then GenerateCode(draws) else choice
  }

  /** `new` is recognised in every casing, `NEW`, `New`, ... */
  lemma NewInAnyCase(entry: string)
    requires SameIgnoringCase(Strip(entry), "new")
    ensures WantsNewChannel(entry)
  {
    var s := Strip(entry);
    assert Lower(s) == "new";
  }

  /** Servers on the local machine are reached without TLS. */
  predicate IsLocal(server: string) {
    StartsWith(server, "localhost") || StartsWith(server, "127.0.0.1")
  }

  function Scheme(server: string): string {
    if IsLocal(server) then "ws://" else "wss://"
  }

  /** The WebSocket address of channel `code` on `server`. */
  function Uri(server: string, code: string): (uri: string)
    ensures StartsWith(uri, "ws://") <==> IsLocal(server)
    ensures StartsWith(uri, "wss://") <==> !IsLocal(server)
    ensures uri == Scheme(server) + server + "/ws/" + code
    ensures EndsWith(uri, "/ws/" + code)
  {
    SchemePrefix(Scheme(server) + server + "/ws/" + code, server);
    PathSuffix(Scheme(server) + server, "/ws/" + code);
    Scheme(server) + server + "/ws/" + code
  }

  lemma PathSuffix(head: string, path: string)
    ensures EndsWith(head + path, path)
  {
    assert (head + path)[|head|..] == path;
  }

  lemma SchemePrefix(uri: string, server: string)
    requires StartsWith(uri, Scheme(server))
    ensures StartsWith(uri, "ws://") <==> IsLocal(server)
    ensures StartsWith(uri, "wss://") <==> !IsLocal(server)
  {
    if IsLocal(server) {
      assert uri[..5] == "ws://";
      assert uri[2] == ':' && "wss://"[2] == 's';
    } else {
      assert uri[..6] == "wss://";
      assert uri[2] == 's' && "ws://"[2] == ':';
    }
  }

  /** Where `run_client` connects and under which name. */
  datatype Target = Target(uri: string, code: string, username: string)

  /**
   * The straight-line part of `run_client`, from the three prompt answers and
   * the draws: TLS exactly when the server is not local, the server and then
   * the channel's path in the address, a fresh code for `new`, and the
   * stripped name.
   */
  function RunClient(serverEntry: string, choiceEntry: string, nameEntry: string, draws: seq<nat>): (t: Target)
    requires ValidDraws(draws)
    ensures StartsWith(t.uri, "wss://") <==> !IsLocal(ResolveServer(serverEntry))
    ensures StartsWith(t.uri, "ws://") <==> IsLocal(ResolveServer(serverEntry))
    ensures exists scheme :: (scheme == "ws://" || scheme == "wss://")
                          && t.uri == scheme + ResolveServer(serverEntry) + "/ws/" + t.code
    ensures EndsWith(t.uri, "/ws/" + t.code)
    ensures WantsNewChannel(choiceEntry) ==> |t.code| == CodeLength && forall i :: 0 <= i < |t.code| ==> IsCodeChar(t.code[i])
    ensures !WantsNewChannel(choiceEntry) ==> t.code == Strip(choiceEntry)
    ensures t.username == Strip(nameEntry)
  {
    var server := ResolveServer(serverEntry);
    var code := ChannelCode(choiceEntry, draws);
    var uri := Uri(server, code);
    assert uri == Scheme(server) + server + "/ws/" + code;
    Target(uri, code, Strip(nameEntry))
  }

  /** Taking the default server always means a TLS (`wss://`) connection. */
  lemma DefaultServerIsSecure(serverEntry: string, choiceEntry: string, nameEntry: string, draws: seq<nat>)
    requires ValidDraws(draws) && Blank(serverEntry)
    ensures StartsWith(RunClient(serverEntry, choiceEntry, nameEntry, draws).uri, "wss://")
  {
    var t := RunClient(serverEntry, choiceEntry, nameEntry, draws);
    assert ResolveServer(serverEntry) == DefaultServer;
    DefaultServerUri(t.code);
  }

  lemma DefaultServerUri(code: string)
    ensures StartsWith(Uri(DefaultServer, code), "wss://")
  {
    DefaultServerNotLocal();
  }

  lemma DefaultServerNotLocal()
    ensures !IsLocal(DefaultServer)
  {
    var d := DefaultServer;
    assert d[0] == 't';
    assert d[..9][0] == 't' && "localhost"[0] == 'l';
    assert "127.0.0.1"[0] == '1';
  }
}

=== FILE: config.dfy ===
/**
 * Client configuration (`terminalchat/config.py`): each `Config`
 * classmethod is a pure function of the process environment, given here as
 * a map from variable name to value.
 */
module Config {
  import opened Wrappers
  import opened PyStr

  type Env = map<string, string>

  const DefaultServer: string := "terminalchat-server-1.onrender.com:443"
  const DefaultReconnectAttempts: int := 3
  const DefaultPingInterval: nat := 30
  const DefaultPingTimeout: nat := 15
  const DefaultCloseTimeout: nat := 15

  const ServerVar: string := "TERMINALCHAT_SERVER"
  const ReconnectVar: string := "TERMINALCHAT_MAX_RECONNECT"
  const DebugVar: string := "TERMINALCHAT_DEBUG"
  const LogLevelVar: string := "TERMINALCHAT_LOG_LEVEL"

  /** The logging levels `get_log_level` may answer. */
  const LogLevels: seq<string> := ["DEBUG", "INFO", "WARNING", "ERROR", "CRITICAL"]

  /** The values of `TERMINALCHAT_DEBUG`, lower-cased, that switch debug mode on. */
  const DebugValues: seq<string> := ["true", "1", "yes", "on"]

  /** `os.getenv(key, default)` */
  function GetEnv(env: Env, key: string, default: string): string {
    if key in env then env[key] else default
  }

  /** `get_server_address`: the variable's value, whatever it is, else the public server. */
  function ServerAddress(env: Env): (address: string)
    ensures ServerVar in env ==> address == env[ServerVar]
    ensures ServerVar !in env ==> address == DefaultServer
  {
    GetEnv(env, ServerVar, DefaultServer)
  }

  /**
   * `get_max_reconnect_attempts`: `int()` of the variable. When it is unset
   * the default is the integer 3 itself; a value `int()` rejects also gives 3.
   */
  function MaxReconnectAttempts(env: Env): (attempts: int)
    ensures ReconnectVar in env && ParseInt(env[ReconnectVar]).Some? ==> attempts == ParseInt(env[ReconnectVar]).value
    ensures ReconnectVar in env && ParseInt(env[ReconnectVar]).None? ==> attempts == DefaultReconnectAttempts
    ensures ReconnectVar !in env ==> attempts == DefaultReconnectAttempts
  {
    if ReconnectVar !in env then DefaultReconnectAttempts
    else
      match ParseInt(env[ReconnectVar])
      case Some(n) => n
      case None => DefaultReconnectAttempts
  }

  /**
   * Any integer written the way Python prints it is read back as that
   * integer (Python prints at most `MaxStrDigits` digits).
   */
  lemma MaxReconnectAttemptsReadsBack(env: Env, n: int)
    requires |NatToStr(if n < 0 then -n else n)| <= MaxStrDigits
    ensures MaxReconnectAttempts(env[ReconnectVar := IntToStr(n)]) == n
  {
    ParseIntToStr(n);
  }

  /**
   * A value that starts with one of the separators U+001C to U+001F falls
   * back to the default: `int()` does not skip them, though `strip()` would.
   */
  lemma MaxReconnectAttemptsRefusesSeparator(env: Env, c: char, rest: string)
    requires '\U{1C}' <= c <= '\U{1F}'
    ensures MaxReconnectAttempts(env[ReconnectVar := [c] + rest]) == DefaultReconnectAttempts
  {
    ParseIntRefusesSeparator(c, rest);
  }

  /** A value that is not an integer falls back to the default rather than failing. */
  lemma MaxReconnectAttemptsFallsBack(env: Env)
    requires ReconnectVar in env && ParseInt(env[ReconnectVar]).None?
    ensures MaxReconnectAttempts(env) == DefaultReconnectAttempts
  {
  }

  /** A run of more digits than Python's limit is refused by `int()` and so gives the default. */
  lemma MaxReconnectAttemptsDigitLimit(env: Env, digits: string)
    requires digits != [] && forall i :: 0 <= i < |digits| ==> IsDigit(digits[i])
    requires |digits| > MaxStrDigits
    ensures MaxReconnectAttempts(env[ReconnectVar := digits]) == DefaultReconnectAttempts
  {
    ParseTooManyDigits(digits);
  }

  datatype WebSocketSettings = WebSocketSettings(pingInterval: nat, pingTimeout: nat, closeTimeout: nat)

  /** `get_websocket_config`: fixed keep-alive settings; the environment plays no part. */
  function WebSocketConfig(): (settings: WebSocketSettings)
    ensures settings.pingInterval == 30 && settings.pingTimeout == 15 && settings.closeTimeout == 15
    ensures settings.pingTimeout < settings.pingInterval
  {
    WebSocketSettings(DefaultPingInterval, DefaultPingTimeout, DefaultCloseTimeout)
  }

  /** `is_debug_mode`: the lower-cased variable is one of the four switch-on words. */
  function DebugMode(env: Env): (on: bool)
    ensures DebugVar !in env ==> !on
    ensures on ==> DebugVar in env && 1 <= |env[DebugVar]| <= 4
  {
    Lower(GetEnv(env, DebugVar, "")) in DebugValues
  }

  /**
   * Debug mode is on exactly when the variable is set and spells one of
   * `true`, `1`, `yes`, `on` in some mix of cases; unset means off.
   */
  lemma DebugModeExactly(env: Env)
    ensures DebugMode(env) <==>
      DebugVar in env && exists w :: w in DebugValues && SameIgnoringCase(env[DebugVar], w)
  {
    var v := GetEnv(env, DebugVar, "");
    if DebugMode(env) {
      var w := Lower(v);
      assert w in DebugValues;
      assert SameIgnoringCase(v, w);
      assert v != "" by {
        assert Lower("") == "";
      }
    }
    if DebugVar in env {
      forall w | w in DebugValues && SameIgnoringCase(v, w) ensures Lower(v) == w {
        assert forall i :: 0 <= i < |w| ==> LowerChar(w[i]) == w[i];
      }
    }
  }

  /** `get_log_level`: the upper-cased variable when it names a level, else `WARNING`. */
  function LogLevel(env: Env): (level: string)
    ensures level in LogLevels
  {
    var requested := Upper(GetEnv(env, LogLevelVar, "WARNING"));
    if requested in LogLevels then requested else "WARNING"
  }

  lemma UpperMatchesLevel(s: string, level: string)
    requires level in LogLevels
    ensures Upper(s) == level <==> SameIgnoringCase(s, level)
  {
    assert forall i :: 0 <= i < |level| ==> UpperChar(level[i]) == level[i];
    if SameIgnoringCase(s, level) {
      forall i | 0 <= i < |s| ensures Upper(s)[i] == level[i] {
        LowerUpperAgree(s[i], level[i]);
      }
    }
    if Upper(s) == level {
      forall i | 0 <= i < |s| ensures LowerChar(s[i]) == LowerChar(level[i]) {
        LowerUpperAgree(s[i], level[i]);
      }
    }
  }

  /** Any casing of a level name selects that level. */
  lemma LogLevelIgnoresCase(env: Env, s: string, level: string)
    requires level in LogLevels && SameIgnoringCase(s, level)
    ensures LogLevel(env[LogLevelVar := s]) == level
  {
    UpperMatchesLevel(s, level);
  }

  /**
   * The level is `WARNING` when the variable is unset or names no level;
   * any other answer is the level the variable spells.
   */
  lemma LogLevelOtherwiseWarning(env: Env)
    ensures LogLevelVar !in env ==> LogLevel(env) == "WARNING"
    ensures LogLevelVar in env && (forall l :: l in LogLevels ==> !SameIgnoringCase(env[LogLevelVar], l))
            ==> LogLevel(env) == "WARNING"
    ensures LogLevelVar in env && LogLevel(env) != "WARNING" ==> SameIgnoringCase(env[LogLevelVar], LogLevel(env))
  {
    if LogLevelVar in env {
      var v := env[LogLevelVar];
      forall l | l in LogLevels ensures Upper(v) == l <==> SameIgnoringCase(v, l) {
        UpperMatchesLevel(v, l);
      }
    } else {
      assert Upper("WARNING") == "WARNING";
    }
  }
}

=== FILE: pystr.dfy ===
/**
 * The Python built-ins on `str` and `int` that the chat code relies on,
 * over `string`: a sequence of Unicode scalar values, which is a Python
 * `str` without lone surrogates.
 */
module PyStr {
  import opened Wrappers

  /** Python's whitespace test for one character, as used by `strip()` and `split()`. */
  predicate IsSpace(c: char) {
    c == ' ' || ('\t' <= c <= '\r') || ('\U{1C}' <= c <= '\U{1F}') || c == '\U{85}' || c == '\U{A0}'
    || c == '\U{1680}' || ('\U{2000}' <= c <= '\U{200A}') || c == '\U{2028}' || c == '\U{2029}'
    || c == '\U{202F}' || c == '\U{205F}' || c == '\U{3000}'
  }

  predicate NoSpace(s: string) {
    forall i :: 0 <= i < |s| ==> !IsSpace(s[i])
  }

  predicate Blank(s: string) {
    forall i :: 0 <= i < |s| ==> IsSpace(s[i])
  }

  /** The end of the whitespace run of `s` that starts at `i`. */
  function SpaceRunFrom(s: string, i: nat): (j: nat)
    requires i <= |s|
    ensures i <= j <= |s| && (j < |s| ==> !IsSpace(s[j]))
    ensures forall k :: i <= k < j ==> IsSpace(s[k])
    decreases |s| - i
  {
    if i < |s| && IsSpace(s[i]) then SpaceRunFrom(s, i + 1) else i
  }

  /** The start of the whitespace run of `s` that ends at `j`. */
  function SpaceRunBefore(s: string, j: nat): (i: nat)
    requires j <= |s|
    ensures i <= j && (i > 0 ==> !IsSpace(s[i - 1]))
    ensures forall k :: i <= k < j ==> IsSpace(s[k])
  {
    if j > 0 && IsSpace(s[j - 1]) then SpaceRunBefore(s, j - 1) else j
  }

  /** `s.strip()`: the text between the leading and the trailing whitespace. */
  function Strip(s: string): (r: string)
    ensures exists i, j :: 0 <= i <= j <= |s| && r == s[i..j] && Blank(s[..i]) && Blank(s[j..])
    ensures r == [] || (!IsSpace(r[0]) && !IsSpace(r[|r| - 1]))
    ensures r == [] <==> Blank(s)
    ensures (s == [] || (!IsSpace(s[0]) && !IsSpace(s[|s| - 1]))) ==> r == s
  {
    var start := SpaceRunFrom(s, 0);
    var end := SpaceRunBefore(s, |s|);
    StripBounds(s, start, end);
    if start == |s| then s[start..start] else s[start..end]
  }

  /** The two scans leave blank runs outside `s[start..end]`, and cross only when `s` is blank. */
  lemma StripBounds(s: string, start: nat, end: nat)
    requires start == SpaceRunFrom(s, 0) && end == SpaceRunBefore(s, |s|)
    ensures Blank(s[..start]) && Blank(s[end..])
    ensures start < |s| ==> start < end
  {
    assert forall k :: 0 <= k < start ==> s[..start][k] == s[k];
    assert forall k :: 0 <= k < |s| - end ==> s[end..][k] == s[end + k];
    if start < |s| {
      assert !IsSpace(s[start]);
    }
  }

  /** Length of the run of non-whitespace characters that starts `s`. */
  function WordLength(s: string): (n: nat)
    ensures n <= |s| && NoSpace(s[..n]) && (n < |s| ==> IsSpace(s[n]))
  {
    if s == [] || IsSpace(s[0]) then 0 else 1 + WordLength(s[1..])
  }

  /**
   * `s.split()` without a separator: the maximal runs of non-whitespace
   * characters, in order (`SplitInterleave` and `SplitDecomposes` say so in
   * full).
   */
  function Split(s: string): (words: seq<string>)
    ensures forall w :: w in words ==> w != [] && NoSpace(w)
    ensures words == [] <==> Blank(s)
    decreases |s|
  {
    if s == [] then []
    else if IsSpace(s[0]) then Split(s[1..])
    else
      var n := WordLength(s);
      [s[..n]] + Split(s[n..])
  }

  lemma {:induction false} WordLengthOfWord(w: string, rest: string)
    requires w != [] && NoSpace(w)
    requires rest == [] || IsSpace(rest[0])
    ensures WordLength(w + rest) == |w|
    decreases |w|
  {
    assert (w + rest)[0] == w[0];
    if |w| > 1 {
      assert (w + rest)[1..] == w[1..] + rest;
      WordLengthOfWord(w[1..], rest);
    } else {
      assert (w + rest)[1..] == rest;
    }
  }

  /** Whitespace runs to go around and between words: all blank, the inner ones non-empty. */
  predicate Gaps(gaps: seq<string>) {
    && (forall i :: 0 <= i < |gaps| ==> Blank(gaps[i]))
    && (forall i :: 0 < i < |gaps| - 1 ==> gaps[i] != [])
  }

  /** `gaps[0] + words[0] + gaps[1] + ... + words[n - 1] + gaps[n]` */
  function Interleave(words: seq<string>, gaps: seq<string>): string
    requires |gaps| == |words| + 1
  {
    if words == [] then gaps[0] else gaps[0] + words[0] + Interleave(words[1..], gaps[1..])
  }

  lemma {:induction false} SplitAfterBlank(b: string, rest: string)
    requires Blank(b)
    ensures Split(b + rest) == Split(rest)
    decreases |b|
  {
    if b != [] {
      assert (b + rest)[0] == b[0];
      assert (b + rest)[1..] == b[1..] + rest;
      SplitAfterBlank(b[1..], rest);
    } else {
      assert b + rest == rest;
    }
  }

  lemma SplitAfterWord(w: string, rest: string)
    requires w != [] && NoSpace(w)
    requires rest == [] || IsSpace(rest[0])
    ensures Split(w + rest) == [w] + Split(rest)
  {
    WordLengthOfWord(w, rest);
    assert (w + rest)[0] == w[0];
    assert (w + rest)[..|w|] == w;
    assert (w + rest)[|w|..] == rest;
  }

  lemma GapsTail(gaps: seq<string>)
    requires |gaps| > 0 && Gaps(gaps)
    ensures Blank(gaps[0]) && Gaps(gaps[1..])
  {
    assert forall i :: 0 <= i < |gaps| - 1 ==> gaps[1..][i] == gaps[i + 1];
  }

  lemma InterleaveFirst(words: seq<string>, gaps: seq<string>)
    requires |gaps| == |words| + 1 && |words| > 0
    ensures Interleave(words, gaps) == gaps[0] + (words[0] + Interleave(words[1..], gaps[1..]))
  {
  }

  /** What follows a word in an interleaving is nothing or whitespace. */
  lemma AfterWordIsSpace(words: seq<string>, gaps: seq<string>)
    requires |gaps| == |words| + 1 && Gaps(gaps) && |gaps| > 0
    requires |gaps| > 1 ==> gaps[0] != []
    ensures var rest := Interleave(words, gaps); rest == [] || IsSpace(rest[0])
  {
    var rest := Interleave(words, gaps);
    if words == [] {
      assert rest == gaps[0];
    } else {
      InterleaveFirst(words, gaps);
      assert rest[0] == gaps[0][0];
    }
  }

  /** Words with any whitespace around and between them split back into exactly those words. */
  lemma {:induction false} SplitInterleave(words: seq<string>, gaps: seq<string>)
    requires forall w :: w in words ==> w != [] && NoSpace(w)
    requires |gaps| == |words| + 1 && Gaps(gaps)
    ensures Split(Interleave(words, gaps)) == words
    decreases |words|
  {
    GapsTail(gaps);
    if words == [] {
      assert gaps[0] + [] == gaps[0];
      SplitAfterBlank(gaps[0], []);
    } else {
      assert words[0] in words;
      assert forall v :: v in words[1..] ==> v in words;
      SplitInterleaveStep(words, gaps);
      SplitInterleave(words[1..], gaps[1..]);
      assert words == [words[0]] + words[1..];
    }
  }

  lemma SplitInterleaveStep(words: seq<string>, gaps: seq<string>)
    requires words != [] && words[0] != [] && NoSpace(words[0])
    requires |gaps| == |words| + 1 && Gaps(gaps)
    ensures Split(Interleave(words, gaps)) == [words[0]] + Split(Interleave(words[1..], gaps[1..]))
  {
    GapsTail(gaps);
    var rest := Interleave(words[1..], gaps[1..]);
    InterleaveFirst(words, gaps);
    SplitAfterBlank(gaps[0], words[0] + rest);
    assert |gaps[1..]| > 1 ==> gaps[1..][0] != [];
    AfterWordIsSpace(words[1..], gaps[1..]);
    SplitAfterWord(words[0], rest);
  }

  /** A decomposition whose first gap is empty starts with its first word. */
  lemma StartsWithWord(words: seq<string>, gaps: seq<string>)
    requires |gaps| == |words| + 1 && |words| > 0 && gaps[0] == [] && words[0] != []
    ensures Interleave(words, gaps) != [] && Interleave(words, gaps)[0] == words[0][0]
  {
    InterleaveFirst(words, gaps);
  }

  /** Every string is its words with whitespace runs around and between them. */
  lemma {:induction false} SplitDecomposes(s: string)
    ensures exists gaps :: |gaps| == |Split(s)| + 1 && Gaps(gaps) && s == Interleave(Split(s), gaps)
    decreases |s|
  {
    if s == [] {
      assert s == Interleave([], [[]]);
    } else if IsSpace(s[0]) {
      SplitDecomposes(s[1..]);
      var gaps :| |gaps| == |Split(s[1..])| + 1 && Gaps(gaps) && s[1..] == Interleave(Split(s[1..]), gaps);
      SplitSkipsSpace(s);
      DecomposeAfterSpace(s, Split(s), gaps);
    } else {
      var n := WordLength(s);
      SplitDecomposes(s[n..]);
      var gaps :| |gaps| == |Split(s[n..])| + 1 && Gaps(gaps) && s[n..] == Interleave(Split(s[n..]), gaps);
      SplitAtWord(s, n);
      DecomposeAfterWord(s, s[..n], s[n..], Split(s[n..]), gaps);
    }
  }

  lemma DecomposeAfterSpace(s: string, words: seq<string>, gaps: seq<string>)
    requires s != [] && IsSpace(s[0])
    requires |gaps| == |words| + 1 && Gaps(gaps) && s[1..] == Interleave(words, gaps)
    ensures var g := [[s[0]] + gaps[0]] + gaps[1..];
      |g| == |words| + 1 && Gaps(g) && s == Interleave(words, g)
  {
    SpaceBefore(s[0], words, gaps);
    assert s == [s[0]] + s[1..];
  }

  lemma SplitSkipsSpace(s: string)
    requires s != [] && IsSpace(s[0])
    ensures Split(s) == Split(s[1..])
  {
  }

  lemma SplitAtWord(s: string, n: nat)
    requires s != [] && !IsSpace(s[0]) && n == WordLength(s)
    ensures Split(s) == [s[..n]] + Split(s[n..])
    ensures s == s[..n] + s[n..] && (s[n..] == [] || IsSpace(s[n..][0]))
  {
    assert n < |s| ==> s[n..][0] == s[n];
  }

  lemma DecomposeAfterWord(s: string, w: string, rest: string, words: seq<string>, gaps: seq<string>)
    requires s == w + rest && (rest == [] || IsSpace(rest[0]))
    requires forall v :: v in words ==> v != [] && NoSpace(v)
    requires |gaps| == |words| + 1 && Gaps(gaps) && rest == Interleave(words, gaps)
    ensures |[[]] + gaps| == |[w] + words| + 1 && Gaps([[]] + gaps) && s == Interleave([w] + words, [[]] + gaps)
  {
    if words != [] {
      assert words[0] in words;
      FirstGapNonEmpty(words, gaps);
    }
    WordBefore(w, words, gaps);
  }

  lemma SpaceBefore(c: char, words: seq<string>, gaps: seq<string>)
    requires IsSpace(c) && |gaps| == |words| + 1 && Gaps(gaps)
    ensures var g := [[c] + gaps[0]] + gaps[1..];
      |g| == |words| + 1 && Gaps(g) && [c] + Interleave(words, gaps) == Interleave(words, g)
  {
    var g := [[c] + gaps[0]] + gaps[1..];
    GapsTail(gaps);
    assert Blank(g[0]) by {
      forall k | 0 <= k < |g[0]| ensures IsSpace(g[0][k]) {
        if k > 0 {
          assert g[0][k] == gaps[0][k - 1];
        }
      }
    }
    assert forall i :: 0 < i < |g| ==> g[i] == gaps[i];
    assert g[1..] == gaps[1..];
    if words != [] {
      InterleaveFirst(words, gaps);
      InterleaveFirst(words, g);
    }
  }

  lemma WordBefore(w: string, words: seq<string>, gaps: seq<string>)
    requires |gaps| == |words| + 1 && Gaps(gaps)
    requires words != [] ==> gaps[0] != []
    ensures var g := [[]] + gaps;
      |g| == |words| + 2 && Gaps(g) && w + Interleave(words, gaps) == Interleave([w] + words, g)
  {
    var g := [[]] + gaps;
    assert forall i :: 0 < i < |g| ==> g[i] == gaps[i - 1];
    InterleaveFirst([w] + words, g);
    assert ([w] + words)[1..] == words && g[1..] == gaps;
  }

  /** A decomposition of a string that starts with whitespace has a non-empty first gap. */
  lemma FirstGapNonEmpty(words: seq<string>, gaps: seq<string>)
    requires |gaps| == |words| + 1 && words != [] && words[0] != [] && NoSpace(words[0])
    requires Interleave(words, gaps) != [] && IsSpace(Interleave(words, gaps)[0])
    ensures gaps[0] != []
  {
    if gaps[0] == [] {
      StartsWithWord(words, gaps);
    }
  }

  function LowerChar(c: char): char {
    if 'A' <= c <= 'Z' then (c as int + 32) as char else c
  }

  function UpperChar(c: char): char {
    if 'a' <= c <= 'z' then (c as int - 32) as char else c
  }

  /** `s.lower()`, for ASCII letters. */
  function Lower(s: string): string {
    seq(|s|, i requires 0 <= i < |s| => LowerChar(s[i]))
  }

  /** `s.upper()`, for ASCII letters. */
  function Upper(s: string): string {
    seq(|s|, i requires 0 <= i < |s| => UpperChar(s[i]))
  }

  /** `s` spells `word` up to the case of its letters (an independent statement of `s.lower() == word.lower()`). */
  predicate SameIgnoringCase(s: string, word: string) {
    |s| == |word| && forall i :: 0 <= i < |s| ==> LowerChar(s[i]) == LowerChar(word[i])
  }

  /** Folding to lower case and folding to upper case identify the same characters. */
  lemma LowerUpperAgree(a: char, b: char)
    ensures LowerChar(a) == LowerChar(b) <==> UpperChar(a) == UpperChar(b)
  {
  }

  /** `s.startswith(prefix)` */
  predicate StartsWith(s: string, prefix: string) {
    |prefix| <= |s| && s[..|prefix|] == prefix
  }

  /** `s.endswith(suffix)` */
  predicate EndsWith(s: string, suffix: string) {
    |suffix| <= |s| && s[|s| - |suffix|..] == suffix
  }

  /** `s[n:]`: empty once `n` is past the end. */
  function SliceFrom(s: string, n: nat): string {
    if n <= |s| then s[n..] else []
  }

  predicate IsDigit(c: char) {
    '0' <= c <= '9'
  }

  /** Character `i` of `s` is a digit, or a single underscore between two digits (PEP 515). */
  predicate DigitOrSeparator(s: string, i: int)
    requires 0 <= i < |s|
  {
    IsDigit(s[i]) || (s[i] == '_' && 0 < i < |s| - 1 && IsDigit(s[i - 1]) && IsDigit(s[i + 1]))
  }

  /** The unsigned part `int()` accepts in base 10. */
  predicate DigitGroups(s: string) {
    |s| > 0 && forall i :: 0 <= i < |s| ==> DigitOrSeparator(s, i)
  }

  /** The value of the digits of `s`, underscores skipped. */
  function DigitsValue(s: string): nat {
    if s == [] then 0
    else
      var last := s[|s| - 1];
      if IsDigit(last) then 10 * DigitsValue(s[..|s| - 1]) + (last as int - '0' as int)
      else DigitsValue(s[..|s| - 1])
  }

  /**
   * The whitespace `int()` skips around a number. Non-ASCII whitespace is
   * first turned into a space, but ASCII characters are kept as they are
   * and only space and `\t` to `\r` are skipped: the separators U+001C to
   * U+001F, which `strip()` removes, are not.
   */
  predicate IsIntSpace(c: char) {
    IsSpace(c) && !('\U{1C}' <= c <= '\U{1F}')
  }

  predicate IntBlank(s: string) {
    forall i :: 0 <= i < |s| ==> IsIntSpace(s[i])
  }

  /** `s` without the whitespace `int()` skips at either end. */
  function TrimIntSpace(s: string): (t: string)
    ensures |t| <= |s|
    ensures IntBlank(s) ==> t == []
    decreases |s|
  {
    if s != [] && IsIntSpace(s[0]) then TrimIntSpace(s[1..])
    else if s != [] && IsIntSpace(s[|s| - 1]) then TrimIntSpace(s[..|s| - 1])
    else s
  }

  /** Trimming removes exactly the skippable runs around text that starts and ends with something else. */
  lemma {:induction false} TrimAround(p: string, t: string, q: string)
    requires IntBlank(p) && IntBlank(q)
    requires t != [] && !IsIntSpace(t[0]) && !IsIntSpace(t[|t| - 1])
    ensures TrimIntSpace(p + t + q) == t
    decreases |p| + |q|
  {
    var s := p + t + q;
    if p != [] {
      assert s[0] == p[0];
      assert s[1..] == p[1..] + t + q;
      TrimAround(p[1..], t, q);
    } else if q != [] {
      assert s == t + q;
      assert s[0] == t[0] && s[|s| - 1] == q[|q| - 1];
      assert s[..|s| - 1] == [] + t + q[..|q| - 1];
      TrimAround([], t, q[..|q| - 1]);
    } else {
      assert s == t;
    }
  }

  /** A first character `int()` does not skip stays first. */
  lemma {:induction false} TrimKeepsFirst(s: string)
    requires s != [] && !IsIntSpace(s[0])
    ensures TrimIntSpace(s) != [] && TrimIntSpace(s)[0] == s[0]
    decreases |s|
  {
    if IsIntSpace(s[|s| - 1]) {
      TrimKeepsFirst(s[..|s| - 1]);
    }
  }

  /**
   * `int(s)` for a `str`: surrounding whitespace, an optional sign, then
   * digit groups; `None` where Python raises `ValueError`.
   */
  function ParseInt(s: string): (r: Option<int>)
    ensures IntBlank(s) ==> r == None
    ensures r.Some? ==> var t := TrimIntSpace(s);
      t != [] && (t[0] == '+' || t[0] == '-' || IsDigit(t[0])) && IsDigit(t[|t| - 1])
  {
    var t := TrimIntSpace(s);
    if ParseSigned(t).Some? then SignedShape(t); ParseSigned(t) else ParseSigned(t)
  }

  /** What `int()` accepts once trimmed starts with a sign or a digit and ends with a digit. */
  lemma SignedShape(t: string)
    requires ParseSigned(t).Some?
    ensures t != [] && (t[0] == '+' || t[0] == '-' || IsDigit(t[0])) && IsDigit(t[|t| - 1])
  {
    var u := if t != [] && (t[0] == '+' || t[0] == '-') then t[1..] else t;
    assert DigitGroups(u);
    assert DigitOrSeparator(u, 0) && DigitOrSeparator(u, |u| - 1);
    assert t[|t| - 1] == u[|u| - 1];
  }

  /** `int()` reads a number with its surrounding whitespace exactly as the bare number. */
  lemma ParseIntSkipsSpace(p: string, t: string, q: string)
    requires IntBlank(p) && IntBlank(q)
    requires t != [] && !IsIntSpace(t[0]) && !IsIntSpace(t[|t| - 1])
    ensures ParseInt(p + t + q) == ParseSigned(t)
  {
    TrimAround(p, t, q);
  }

  /** A leading separator U+001C to U+001F, which `strip()` would remove, makes `int()` fail. */
  lemma ParseIntRefusesSeparator(c: char, rest: string)
    requires '\U{1C}' <= c <= '\U{1F}'
    ensures ParseInt([c] + rest) == None
  {
    var s := [c] + rest;
    TrimKeepsFirst(s);
    var t := TrimIntSpace(s);
    assert !DigitOrSeparator(t, 0);
  }

  /**
   * CPython's default `sys.int_max_str_digits` (from 3.11, and from 3.7.14,
   * 3.8.14, 3.9.14 and 3.10.7 on): `int()` refuses a decimal string with
   * more digits, and `str()` a longer result.
   */
  const MaxStrDigits: nat := 4300

  /** The number of digits in `s`, underscores not counted. */
  function DigitCount(s: string): (n: nat)
    ensures n <= |s|
  {
    if s == [] then 0 else DigitCount(s[..|s| - 1]) + (if IsDigit(s[|s| - 1]) then 1 else 0)
  }

  /** The unsigned part: digit groups within the digit limit. */
  function Unsigned(u: string): Option<nat> {
    if DigitGroups(u) && DigitCount(u) <= MaxStrDigits then Some(DigitsValue(u)) else None
  }

  /** `int(t)` once the whitespace is gone: an optional sign, then digit groups. */
  function ParseSigned(t: string): Option<int> {
    if t != [] && (t[0] == '+' || t[0] == '-') then
      match Unsigned(t[1..])
      case Some(v) => Some(if t[0] == '-' then -(v as int) else v as int)
      case None => None
    else
      match Unsigned(t)
      case Some(v) => Some(v as int)
      case None => None
  }

  function DigitChar(d: nat): char
    requires d < 10
  {
    ('0' as int + d) as char
  }

  /** `str(n)` for `n >= 0` */
  function NatToStr(n: nat): (s: string)
    ensures s != [] && forall i :: 0 <= i < |s| ==> IsDigit(s[i])
  {
    if n < 10 then [DigitChar(n)] else NatToStr(n / 10) + [DigitChar(n % 10)]
  }

  /** `str(n)` */
  function IntToStr(n: int): string {
    if n < 0 then "-" + NatToStr(-n) else NatToStr(n)
  }

  lemma {:induction false} NatToStrValue(n: nat)
    ensures DigitsValue(NatToStr(n)) == n
  {
    if n >= 10 {
      var s := NatToStr(n);
      assert s[..|s| - 1] == NatToStr(n / 10);
      NatToStrValue(n / 10);
    }
  }

  lemma DigitsAreGroups(digits: string)
    requires digits != [] && forall i :: 0 <= i < |digits| ==> IsDigit(digits[i])
    ensures DigitGroups(digits)
  {
    forall i | 0 <= i < |digits| ensures DigitOrSeparator(digits, i) {
      assert IsDigit(digits[i]);
    }
  }

  lemma {:induction false} AllDigitsCount(digits: string)
    requires forall i :: 0 <= i < |digits| ==> IsDigit(digits[i])
    ensures DigitCount(digits) == |digits|
  {
    if digits != [] {
      AllDigitsCount(digits[..|digits| - 1]);
    }
  }

  lemma DigitNotSpace(c: char)
    requires IsDigit(c)
    ensures !IsSpace(c) && c != '+' && c != '-'
  {
  }

  /** A run of digits within the limit parses as its value. */
  lemma ParseDigits(digits: string)
    requires digits != [] && forall i :: 0 <= i < |digits| ==> IsDigit(digits[i])
    requires |digits| <= MaxStrDigits
    ensures ParseInt(digits) == Some(DigitsValue(digits))
  {
    DigitsUnstripped(digits);
    DigitsAreGroups(digits);
    AllDigitsCount(digits);
    DigitNotSpace(digits[0]);
    UnsignedSigned(digits);
  }

  /** A run of more digits than the limit is refused, as `int()` raises `ValueError` for it. */
  lemma ParseTooManyDigits(digits: string)
    requires digits != [] && forall i :: 0 <= i < |digits| ==> IsDigit(digits[i])
    requires |digits| > MaxStrDigits
    ensures ParseInt(digits) == None
  {
    DigitsUnstripped(digits);
    AllDigitsCount(digits);
    DigitNotSpace(digits[0]);
  }

  lemma DigitsUnstripped(digits: string)
    requires digits != [] && forall i :: 0 <= i < |digits| ==> IsDigit(digits[i])
    ensures TrimIntSpace(digits) == digits
  {
    DigitNotSpace(digits[0]);
    DigitNotSpace(digits[|digits| - 1]);
  }

  /** A minus sign followed by a run of digits within the limit parses as the negated value. */
  lemma ParseNegatedDigits(digits: string)
    requires digits != [] && forall i :: 0 <= i < |digits| ==> IsDigit(digits[i])
    requires |digits| <= MaxStrDigits
    ensures ParseInt("-" + digits) == Some(-(DigitsValue(digits) as int))
  {
    var s := "-" + digits;
    DigitNotSpace(digits[|digits| - 1]);
    assert s[0] == '-' && s[|s| - 1] == digits[|digits| - 1];
    assert TrimIntSpace(s) == s;
    NegatedDigitsSigned(digits);
  }

  lemma NegatedDigitsSigned(digits: string)
    requires digits != [] && forall i :: 0 <= i < |digits| ==> IsDigit(digits[i])
    requires |digits| <= MaxStrDigits
    ensures ParseSigned("-" + digits) == Some(-(DigitsValue(digits) as int))
  {
    var t := "-" + digits;
    DigitsAreGroups(digits);
    AllDigitsCount(digits);
    assert t[1..] == digits;
    NegativeSigned(t);
  }

  lemma UnsignedSigned(t: string)
    requires t != [] && t[0] != '+' && t[0] != '-' && Unsigned(t).Some?
    ensures ParseSigned(t) == Some(Unsigned(t).value as int)
  {
  }

  lemma NegativeSigned(t: string)
    requires t != [] && t[0] == '-' && Unsigned(t[1..]).Some?
    ensures ParseSigned(t) == Some(-(Unsigned(t[1..]).value as int))
  {
  }

  /**
   * `int(str(n)) == n`: the parser reads back every integer Python prints.
   * `str(n)` itself raises beyond the digit limit, so only those `n` are
   * printed.
   */
  lemma ParseIntToStr(n: int)
    requires |NatToStr(if n < 0 then -n else n)| <= MaxStrDigits
    ensures ParseInt(IntToStr(n)) == Some(n)
  {
    var m: nat := if n < 0 then -n else n;
    NatToStrValue(m);
    if n < 0 {
      ParseNegatedDigits(NatToStr(m));
    } else {
      ParseDigits(NatToStr(m));
    }
  }
}

=== FILE: socket_server.dfy ===
/**
 * The raw-socket server of `server/server.py`: the global `channels` and
 * `clients` tables, the per-connection `handle` loop with its `/join` and
 * `/msg` commands, and the failure-tolerant `broadcast`.
 *
 * `Step` and `Run` state what one pass of the loop, and a whole sequence of
 * passes, do to the tables; the `Server` class is the imperative handler,
 * proved to follow them.
 */
module SocketServer {
  import opened Wrappers
  import opened PyStr
  import opened Wire

  /** The two global tables, as a value. */
  datatype Registry = Registry(channels: map<string, seq<Conn>>, clients: map<Conn, string>)

  /** `channels.get(channel, [])`, where a handler that has not joined holds `channel = None`. */
  function Members(channels: map<string, seq<Conn>>, channel: Option<string>): seq<Conn> {
    if channel.Some? && channel.value in channels then channels[channel.value] else []
  }

  /** How `handle` reads one decoded input. */
  datatype Command =
    | Join(channel: string, name: string)  // starts with `/join` and splits into three words
    | MalformedJoin                        // starts with `/join`, any other word count
    | Msg(text: string)                    // starts with `/msg`: everything after the fifth character
    | Other                                // anything else

  function Parse(data: string): (cmd: Command)
    ensures cmd.Join? || cmd.MalformedJoin? <==> StartsWith(data, "/join")
    ensures cmd.Join? <==> StartsWith(data, "/join") && |Split(data)| == 3
    ensures cmd.Join? ==> cmd.channel == Split(data)[1] && cmd.name == Split(data)[2]
    ensures cmd.Msg? <==> !StartsWith(data, "/join") && StartsWith(data, "/msg")
    ensures cmd.Msg? ==> cmd.text == SliceFrom(data, 5)
  {
    if StartsWith(data, "/join") then
      var words := Split(data);
      if |words| == 3 then Join(words[1], words[2]) else MalformedJoin
    else if StartsWith(data, "/msg") then Msg(SliceFrom(data, 5))
    else Other
  }

  /**
   * A `/join` line of words with any whitespace between and after them:
   * three words join (the first word is not checked further), any other
   * count is malformed.
   */
  lemma ParseJoinWords(words: seq<string>, gaps: seq<string>)
    requires |words| > 0 && StartsWith(words[0], "/join")
    requires forall w :: w in words ==> w != [] && NoSpace(w)
    requires |gaps| == |words| + 1 && Gaps(gaps) && gaps[0] == []
    ensures Parse(Interleave(words, gaps)) == if |words| == 3 then Join(words[1], words[2]) else MalformedJoin
  {
    SplitInterleave(words, gaps);
    InterleaveFirst(words, gaps);
    var line := Interleave(words, gaps);
    assert line == words[0] + Interleave(words[1..], gaps[1..]);
    assert line[..5] == words[0][..5];
  }

  /** A line typed at a terminal keeps its newline; `split()` drops it, so the join still goes through. */
  lemma ParseJoinNewline(ch: string, name: string)
    requires ch != [] && NoSpace(ch) && name != [] && NoSpace(name)
    ensures Parse("/join " + ch + " " + name + "\n") == Join(ch, name)
  {
    var words := ["/join", ch, name];
    var gaps := ["", " ", " ", "\n"];
    assert Gaps(gaps) by {
      assert forall i :: 0 <= i < |gaps| ==> Blank(gaps[i]);
    }
    assert Interleave(words, gaps) == "/join " + ch + " " + name + "\n" by {
      assert Interleave(words[3..], gaps[3..]) == "\n";
      assert Interleave(words[2..], gaps[2..]) == " " + name + "\n";
      assert Interleave(words[1..], gaps[1..]) == " " + ch + " " + name + "\n";
    }
    assert "/join"[..5] == "/join";
    ParseJoinWords(words, gaps);
  }

  /** `/msg <text>` carries exactly `<text>`: the slice drops the command and its one space. */
  lemma ParseMsgLine(text: string)
    ensures Parse("/msg " + text) == Msg(text)
  {
    var line := "/msg " + text;
    assert line[..4] == "/msg";
    assert !StartsWith(line, "/join") by {
      assert line[1] == 'm';
    }
    assert line[5..] == text;
  }

  /** One input as the handler sees it. */
  datatype Event = Event(
    data: Option<string>,  // what `client.recv(1024).decode()` gave; `None` when it raised
    broken: set<Conn>)     // the clients whose `send` fails while this input is handled

  /** The handler's loop: still running with its `channel` variable, or left by `break`. */
  datatype Handler = Running(channel: Option<string>) | Stopped

  datatype Outcome = Outcome(reg: Registry, handler: Handler, sent: seq<Delivery>)

  function JoinedNotice(name: string): string {
    name + " joined the chat."
  }

  /** `broadcast`: a send to each member in list order; a failing send is skipped and the loop goes on. */
  function Reached(channels: map<string, seq<Conn>>, channel: Option<string>, text: string, broken: set<Conn>): seq<Delivery> {
    FanOut(Surviving(Members(channels, channel), broken), text)
  }

  /** One pass of the `while True` loop of `handle` for connection `client`. */
  function Step(reg: Registry, client: Conn, channel: Option<string>, ev: Event): (o: Outcome)
    ensures o.handler.Stopped? ==> o.reg == reg && o.sent == []
    ensures ev.data.None? ==> o.handler.Stopped?
    ensures reg.clients.Keys <= o.reg.clients.Keys && reg.channels.Keys <= o.reg.channels.Keys
  {
    match ev.data
    case None => Outcome(reg, Stopped, [])
    case Some(data) =>
      match Parse(data)
      case Join(ch, name) =>
        var channels := reg.channels[ch := Members(reg.channels, Some(ch)) + [client]];
        Outcome(Registry(channels, reg.clients[client := name]), Running(Some(ch)),
                Reached(channels, Some(ch), JoinedNotice(name), ev.broken))
      case MalformedJoin => Outcome(reg, Stopped, [])
      case Msg(text) =>
        if client in reg.clients then
          Outcome(reg, Running(channel), Reached(reg.channels, channel, ChatLine(reg.clients[client], text), ev.broken))
        else Outcome(reg, Stopped, [])
      case Other => Outcome(reg, Running(channel), [])
  }

  /** `o` with `sent` sent before it. */
  function After(sent: seq<Delivery>, o: Outcome): Outcome {
    Outcome(o.reg, o.handler, sent + o.sent)
  }

  /** The handler run over a sequence of inputs, until they run out or the loop breaks. */
  function Run(reg: Registry, client: Conn, h: Handler, events: seq<Event>): (o: Outcome)
    ensures h.Stopped? ==> o == Outcome(reg, h, [])
    ensures reg.clients.Keys <= o.reg.clients.Keys && reg.channels.Keys <= o.reg.channels.Keys
    decreases |events|
  {
    if events == [] || h.Stopped? then Outcome(reg, h, [])
    else
      var o := Step(reg, client, h.channel, events[0]);
      After(o.sent, Run(o.reg, client, o.handler, events[1..]))
  }

  lemma RunStep(reg: Registry, client: Conn, h: Handler, events: seq<Event>)
    requires events != [] && h.Running?
    ensures var o := Step(reg, client, h.channel, events[0]);
      Run(reg, client, h, events) == After(o.sent, Run(o.reg, client, o.handler, events[1..]))
  {
  }

  lemma AfterAfter(a: seq<Delivery>, b: seq<Delivery>, o: Outcome)
    ensures After(a, After(b, o)) == After(a + b, o)
  {
    assert a + (b + o.sent) == (a + b) + o.sent;
  }

  /** A good `/join` records the name, appends the client at the end of its channel, and tells the whole channel, the joiner included. */
  lemma StepJoin(reg: Registry, client: Conn, channel: Option<string>, ev: Event, ch: string, name: string)
    requires ev.data.Some? && Parse(ev.data.value) == Join(ch, name)
    ensures var o := Step(reg, client, channel, ev);
      && o.handler == Running(Some(ch))
      && o.reg.clients == reg.clients[client := name]
      && o.reg.channels == reg.channels[ch := Members(reg.channels, Some(ch)) + [client]]
      && (client !in ev.broken ==> Delivery(client, JoinedNotice(name)) in o.sent)
  {
    var members := Members(reg.channels, Some(ch)) + [client];
    var channels := reg.channels[ch := members];
    assert Members(channels, Some(ch)) == members;
    assert Step(reg, client, channel, ev)
        == Outcome(Registry(channels, reg.clients[client := name]), Running(Some(ch)), Reached(channels, Some(ch), JoinedNotice(name), ev.broken));
    if client !in ev.broken {
      JoinerHearsNotice(Members(reg.channels, Some(ch)), client, ev.broken, JoinedNotice(name));
    }
  }

  lemma JoinerHearsNotice(members: seq<Conn>, client: Conn, broken: set<Conn>, text: string)
    requires client !in broken
    ensures Delivery(client, text) in FanOut(Surviving(members + [client], broken), text)
  {
    SurvivorReached(members + [client], broken, text, |members|);
  }

  /** A `/join` with the wrong word count ends the handler and changes nothing. */
  lemma StepMalformedJoin(reg: Registry, client: Conn, channel: Option<string>, ev: Event)
    requires ev.data.Some? && StartsWith(ev.data.value, "/join") && |Split(ev.data.value)| != 3
    ensures Step(reg, client, channel, ev) == Outcome(reg, Stopped, [])
  {
  }

  /** `/msg` from a joined client goes to its channel as its chat line; nothing in the tables changes. */
  lemma StepMsg(reg: Registry, client: Conn, channel: Option<string>, ev: Event)
    requires ev.data.Some? && !StartsWith(ev.data.value, "/join") && StartsWith(ev.data.value, "/msg")
    requires client in reg.clients
    ensures Step(reg, client, channel, ev)
         == Outcome(reg, Running(channel), Reached(reg.channels, channel, ChatLine(reg.clients[client], SliceFrom(ev.data.value, 5)), ev.broken))
  {
  }

  /** `/msg` before any `/join` fails the name lookup: the handler ends and nothing is sent. */
  lemma StepMsgBeforeJoin(reg: Registry, client: Conn, channel: Option<string>, ev: Event)
    requires ev.data.Some? && StartsWith(ev.data.value, "/msg") && client !in reg.clients
    ensures Step(reg, client, channel, ev) == Outcome(reg, Stopped, [])
  {
    assert !StartsWith(ev.data.value, "/join") by {
      assert ev.data.value[1] == 'm';
    }
    assert Parse(ev.data.value) == Msg(SliceFrom(ev.data.value, 5));
  }

  /** Any other input is ignored: nothing changes and nothing is sent. */
  lemma StepOther(reg: Registry, client: Conn, channel: Option<string>, ev: Event)
    requires ev.data.Some? && !StartsWith(ev.data.value, "/join") && !StartsWith(ev.data.value, "/msg")
    ensures Step(reg, client, channel, ev) == Outcome(reg, Running(channel), [])
  {
  }

  /** A failed send does not stop the broadcast: every member whose send works is reached, whatever failed before it. */
  lemma BroadcastTolerant(channels: map<string, seq<Conn>>, channel: Option<string>, text: string, broken: set<Conn>, i: nat)
    requires i < |Members(channels, channel)| && Members(channels, channel)[i] !in broken
    ensures Delivery(Members(channels, channel)[i], text) in Reached(channels, channel, text, broken)
  {
    SurvivorReached(Members(channels, channel), broken, text, i);
  }

  /** `b` is `a` with possibly more: known clients stay known, and each channel list only gets longer at the end. */
  ghost predicate Grows(a: Registry, b: Registry) {
    && a.clients.Keys <= b.clients.Keys
    && forall ch :: ch in a.channels ==> ch in b.channels && a.channels[ch] <= b.channels[ch]
  }

  lemma GrowsTransitive(a: Registry, b: Registry, c: Registry)
    requires Grows(a, b) && Grows(b, c)
    ensures Grows(a, c)
  {
    forall ch | ch in a.channels ensures ch in c.channels && a.channels[ch] <= c.channels[ch] {
      assert a.channels[ch] == b.channels[ch][..|a.channels[ch]|];
    }
  }

  lemma StepGrows(reg: Registry, client: Conn, channel: Option<string>, ev: Event)
    ensures Grows(reg, Step(reg, client, channel, ev).reg)
  {
  }

  /** The handler never removes anyone: over any run the tables only grow. */
  lemma {:induction false} RunGrows(reg: Registry, client: Conn, h: Handler, events: seq<Event>)
    ensures Grows(reg, Run(reg, client, h, events).reg)
    decreases |events|
  {
    if events != [] && h.Running? {
      var o := Step(reg, client, h.channel, events[0]);
      StepGrows(reg, client, h.channel, events[0]);
      RunGrows(o.reg, client, o.handler, events[1..]);
      GrowsTransitive(reg, o.reg, Run(o.reg, client, o.handler, events[1..]).reg);
    }
  }

  /** What a handler's `channel` variable says agrees with the tables: it is set exactly when the client has a name, and the client is then in that channel. */
  ghost predicate HandlerAgrees(reg: Registry, client: Conn, h: Handler) {
    h.Running? ==>
      && (h.channel.Some? <==> client in reg.clients)
      && (h.channel.Some? ==> client in Members(reg.channels, h.channel))
  }

  lemma {:induction false} RunKeepsAgreement(reg: Registry, client: Conn, h: Handler, events: seq<Event>)
    requires HandlerAgrees(reg, client, h)
    ensures HandlerAgrees(Run(reg, client, h, events).reg, client, Run(reg, client, h, events).handler)
    decreases |events|
  {
    if events != [] && h.Running? {
      var o := Step(reg, client, h.channel, events[0]);
      RunKeepsAgreement(o.reg, client, o.handler, events[1..]);
    }
  }

  /** After a `/join`, a `/msg` never ends the handler, and the sender hears its own message unless its send fails. */
  lemma MsgAfterJoin(reg: Registry, client: Conn, ch: string, ev: Event)
    requires HandlerAgrees(reg, client, Running(Some(ch)))
    requires ev.data.Some? && !StartsWith(ev.data.value, "/join") && StartsWith(ev.data.value, "/msg")
    ensures var o := Step(reg, client, Some(ch), ev);
      && o.handler == Running(Some(ch))
      && (client !in ev.broken ==> Delivery(client, ChatLine(reg.clients[client], SliceFrom(ev.data.value, 5))) in o.sent)
  {
    StepMsg(reg, client, Some(ch), ev);
    var members := Members(reg.channels, Some(ch));
    var i :| 0 <= i < |members| && members[i] == client;
    if client !in ev.broken {
      BroadcastTolerant(reg.channels, Some(ch), ChatLine(reg.clients[client], SliceFrom(ev.data.value, 5)), ev.broken, i);
    }
  }

  /** The server process: the two global tables, and `handle` and `broadcast` over them. */
  class Server {
    var channels: map<string, seq<Conn>>
    var clients: map<Conn, string>

    function State(): Registry
      reads this
    {
      Registry(channels, clients)
    }

    constructor ()
      ensures State() == Registry(map[], map[])
    {
      channels := map[];
      clients := map[];
    }

    /** `broadcast(channel, msg)`: every send is tried, in list order; one that fails is passed over. */
    method Broadcast(channel: Option<string>, msg: string, broken: set<Conn>) returns (sent: seq<Delivery>)
      ensures sent == Reached(channels, channel, msg, broken)
    {
      var members := if channel.Some? && channel.value in channels then channels[channel.value] else [];
      sent := [];
      for i := 0 to |members|
        invariant sent == FanOut(Surviving(members[..i], broken), msg)
      {
        FanOutSurvivingStep(members, broken, msg, i);
        if members[i] !in broken {
          sent := sent + [Delivery(members[i], msg)];
        }
      }
      assert members[..|members|] == members;
    }

    /** One pass of the loop in `handle`: the input is read as a command and carried out. */
    method Serve(client: Conn, channel: Option<string>, ev: Event) returns (sent: seq<Delivery>, handler: Handler)
      modifies this
      ensures Outcome(State(), handler, sent) == Step(old(State()), client, channel, ev)
    {
      sent, handler := [], Running(channel);
      match ev.data {
        case None =>
          handler := Stopped;
        case Some(data) =>
          if StartsWith(data, "/join") {
            var words := Split(data);
            if |words| != 3 {
              handler := Stopped;
            } else {
              var ch, name := words[1], words[2];
              handler := Running(Some(ch));
              clients := clients[client := name];
              var list := if ch in channels then channels[ch] else [];
              channels := channels[ch := list + [client]];
              sent := Broadcast(Some(ch), JoinedNotice(name), ev.broken);
            }
          } else if StartsWith(data, "/msg") {
            var msg := SliceFrom(data, 5);
            if client !in clients {
              handler := Stopped;
            } else {
              sent := Broadcast(channel, ChatLine(clients[client], msg), ev.broken);
            }
          }
      }
    }

    /**
     * `handle(client)` over the inputs it receives: a `/join` or `/msg` is
     * carried out, other input is ignored, and an exception (a failed
     * receive or decode, a malformed `/join`, `/msg` before `/join`) breaks
     * the loop.
     */
    method Handle(client: Conn, events: seq<Event>) returns (sent: seq<Delivery>, handler: Handler)
      modifies this
      ensures Outcome(State(), handler, sent) == Run(old(State()), client, Running(None), events)
      ensures Grows(old(State()), State())
    {
      sent, handler := [], Running(None);
      var i := 0;
      assert events[0..] == events;
      assert Run(old(State()), client, Running(None), events) == After(sent, Run(State(), client, handler, events[i..]));
      while i < |events| && handler.Running?
        invariant 0 <= i <= |events|
        invariant Run(old(State()), client, Running(None), events) == After(sent, Run(State(), client, handler, events[i..]))
      {
        ghost var before, rest := State(), events[i..];
        RunStep(before, client, handler, rest);
        assert rest[0] == events[i] && rest[1..] == events[i + 1..];
        var s, h := Serve(client, handler.channel, events[i]);
        AfterAfter(sent, s, Run(State(), client, h, events[i + 1..]));
        sent, handler := sent + s, h;
        i := i + 1;
      }
      assert Run(State(), client, handler, events[i..]) == Outcome(State(), handler, []);
      assert sent + [] == sent;
      RunGrows(old(State()), client, Running(None), events);
    }
  }
}

=== FILE: websocket_server.dfy ===
/**
 * The FastAPI relay of `websocket_server/main.py`: the module-level
 * `channels` (channel name to the ordered list of its connections) and
 * `users` (connection to user name) tables, the join / relay / leave steps
 * of `websocket_endpoint`, and `broadcast`. Each step is one atomic update
 * of the two tables followed by the sends it issues, returned as deliveries.
 */
module WebSocketServer {
  import opened Wire

  function JoinNotice(username: string): string {
    "\U{1F7E2} " + username + " joined the chat."
  }

  function LeaveNotice(username: string): string {
    "\U{1F534} " + username + " left the chat."
  }

  /** `channels.get(channel, [])` */
  function Members(channels: map<string, seq<Conn>>, channel: string): seq<Conn> {
    if channel in channels then channels[channel] else []
  }

  /** The position of the first occurrence of `x` in `s`. */
  function IndexOf(s: seq<Conn>, x: Conn): (k: nat)
    requires x in s
    ensures k < |s| && s[k] == x && x !in s[..k]
  {
    if s[0] == x then 0
    else
      var k := IndexOf(s[1..], x);
      assert s[..k + 1] == [s[0]] + s[1..][..k];
      k + 1
  }

  /** `list.remove(x)`: the list without its first `x`, the others in their old order. */
  function RemoveFirst(s: seq<Conn>, x: Conn): (r: seq<Conn>)
    requires x in s
    ensures multiset(r) == multiset(s) - multiset{x}
    ensures |r| == |s| - 1
    ensures forall i :: 0 <= i < |r| ==> r[i] == (if i < IndexOf(s, x) then s[i] else s[i + 1])
  {
    var k := IndexOf(s, x);
    assert s == s[..k] + [x] + s[k + 1..];
    s[..k] + s[k + 1..]
  }

  /** Every frame of `frames` relayed in turn to `members`, as `username` wrote it. */
  function RelayAll(members: seq<Conn>, username: string, frames: seq<string>): seq<Delivery> {
    if frames == [] then []
    else RelayAll(members, username, frames[..|frames| - 1]) + FanOut(members, ChatLine(username, frames[|frames| - 1]))
  }

  /**
   * Every live connection is listed exactly once, under its own channel,
   * and every listed connection is live: the tables say who is in each
   * channel right now.
   */
  ghost predicate Consistent(channels: map<string, seq<Conn>>, users: map<Conn, string>, joined: map<Conn, string>) {
    && users.Keys == joined.Keys
    && (forall ws :: ws in joined ==> joined[ws] in channels && multiset(channels[joined[ws]])[ws] == 1)
    && (forall ch, ws :: ch in channels && ws in channels[ch] ==> ws in joined && joined[ws] == ch)
  }

  /** Appending a new connection to its channel keeps the tables consistent. */
  lemma JoinConsistent(channels: map<string, seq<Conn>>, users: map<Conn, string>, joined: map<Conn, string>,
                       ws: Conn, channel: string, username: string)
    requires Consistent(channels, users, joined) && ws !in users
    ensures ws !in Members(channels, channel)
    ensures Consistent(channels[channel := Members(channels, channel) + [ws]], users[ws := username], joined[ws := channel])
  {
    JoinCountsOnce(channels, joined, ws, channel);
    JoinListsHome(channels, joined, ws, channel);
  }

  lemma JoinCountsOnce(channels: map<string, seq<Conn>>, joined: map<Conn, string>, ws: Conn, channel: string)
    requires forall c :: c in joined ==> joined[c] in channels && multiset(channels[joined[c]])[c] == 1
    requires forall ch, c :: ch in channels && c in channels[ch] ==> c in joined && joined[c] == ch
    requires ws !in joined
    ensures ws !in Members(channels, channel)
    ensures var channels', joined' := channels[channel := Members(channels, channel) + [ws]], joined[ws := channel];
      forall c :: c in joined' ==> joined'[c] in channels' && multiset(channels'[joined'[c]])[c] == 1
  {
    var list := Members(channels, channel);
    var channels', joined' := channels[channel := list + [ws]], joined[ws := channel];
    forall c | c in joined' ensures joined'[c] in channels' && multiset(channels'[joined'[c]])[c] == 1 {
      if c != ws && joined[c] != channel {
        assert channels'[joined'[c]] == channels[joined[c]];
      }
    }
  }

  lemma JoinListsHome(channels: map<string, seq<Conn>>, joined: map<Conn, string>, ws: Conn, channel: string)
    requires forall ch, c :: ch in channels && c in channels[ch] ==> c in joined && joined[c] == ch
    requires ws !in joined
    ensures var channels', joined' := channels[channel := Members(channels, channel) + [ws]], joined[ws := channel];
      forall ch, c :: ch in channels' && c in channels'[ch] ==> c in joined' && joined'[c] == ch
  {
    var list := Members(channels, channel);
    var channels', joined' := channels[channel := list + [ws]], joined[ws := channel];
    forall ch, c | ch in channels' && c in channels'[ch] ensures c in joined' && joined'[c] == ch {
      if ch == channel {
        assert c in list || c == ws;
      }
    }
  }

  /** Removing the only `x` leaves exactly the other members. */
  lemma RemoveOnly(list: seq<Conn>, x: Conn)
    requires multiset(list)[x] == 1
    ensures x in list
    ensures forall c :: c in RemoveFirst(list, x) <==> c in list && c != x
  {
    assert x in multiset(list);
    var rest := RemoveFirst(list, x);
    forall c ensures c in rest <==> c in list && c != x {
      assert c in rest <==> c in multiset(rest);
      assert c in list <==> c in multiset(list);
    }
  }

  /** Removing a live connection from its channel and from `users` keeps the tables consistent. */
  lemma LeaveConsistent(channels: map<string, seq<Conn>>, users: map<Conn, string>, joined: map<Conn, string>,
                        ws: Conn, channel: string)
    requires Consistent(channels, users, joined) && ws in joined && joined[ws] == channel
    ensures channel in channels && ws in channels[channel]
    ensures Consistent(channels[channel := RemoveFirst(channels[channel], ws)], users - {ws}, joined - {ws})
    ensures forall c :: c in RemoveFirst(channels[channel], ws) <==> c in channels[channel] && c != ws
  {
    RemoveOnly(channels[channel], ws);
    LeaveCountsOnce(channels, joined, ws, channel);
    LeaveListsHome(channels, joined, ws, channel);
  }

  lemma LeaveCountsOnce(channels: map<string, seq<Conn>>, joined: map<Conn, string>, ws: Conn, channel: string)
    requires forall c :: c in joined ==> joined[c] in channels && multiset(channels[joined[c]])[c] == 1
    requires ws in joined && joined[ws] == channel
    ensures channel in channels && ws in channels[channel]
    ensures var channels', joined' := channels[channel := RemoveFirst(channels[channel], ws)], joined - {ws};
      forall c :: c in joined' ==> joined'[c] in channels' && multiset(channels'[joined'[c]])[c] == 1
  {
    assert ws in multiset(channels[channel]);
    var channels', joined' := channels[channel := RemoveFirst(channels[channel], ws)], joined - {ws};
    forall c | c in joined' ensures joined'[c] in channels' && multiset(channels'[joined'[c]])[c] == 1 {
      if joined[c] != channel {
        assert channels'[joined'[c]] == channels[joined[c]];
      }
    }
  }

  lemma LeaveListsHome(channels: map<string, seq<Conn>>, joined: map<Conn, string>, ws: Conn, channel: string)
    requires forall ch, c :: ch in channels && c in channels[ch] ==> c in joined && joined[c] == ch
    requires channel in channels && ws in channels[channel]
    requires forall c :: c in RemoveFirst(channels[channel], ws) <==> c in channels[channel] && c != ws
    ensures var channels', joined' := channels[channel := RemoveFirst(channels[channel], ws)], joined - {ws};
      forall ch, c :: ch in channels' && c in channels'[ch] ==> c in joined' && joined'[c] == ch
  {
    var rest := RemoveFirst(channels[channel], ws);
    var channels', joined' := channels[channel := rest], joined - {ws};
    forall ch, c | ch in channels' && c in channels'[ch] ensures c in joined' && joined'[c] == ch {
      if ch == channel {
        assert c in rest;
        assert c in channels[channel] && c != ws;
      } else {
        assert channels'[ch] == channels[ch];
        assert joined[c] == ch && joined[ws] == channel;
      }
    }
  }

  lemma AddThenRemove<V>(m: map<Conn, V>, k: Conn, v: V)
    requires k !in m
    ensures m[k := v] - {k} == m
  {
    assert (m[k := v] - {k}).Keys == m.Keys;
  }

  lemma UpdateTwice<V>(m: map<string, V>, k: string, a: V, b: V)
    ensures m[k := a][k := b] == m[k := b]
  {
    assert m[k := a][k := b].Keys == m[k := b].Keys;
  }

  /** A connection that joined last and leaves without anyone else acting puts the tables back. */
  lemma JoinThenLeave(channels: map<string, seq<Conn>>, users: map<Conn, string>, joined: map<Conn, string>,
                      ws: Conn, channel: string, username: string)
    requires Consistent(channels, users, joined) && ws !in users
    ensures var others := Members(channels, channel);
      && RemoveFirst(others + [ws], ws) == others
      && channels[channel := others + [ws]][channel := others] == channels[channel := others]
      && users[ws := username] - {ws} == users
      && joined[ws := channel] - {ws} == joined
  {
    var others := Members(channels, channel);
    JoinConsistent(channels, users, joined, ws, channel, username);
    assert ws in joined[ws := channel];
    assert IndexOf(others + [ws], ws) == |others| by {
      assert forall k :: 0 <= k < |others| ==> (others + [ws])[k] == others[k] != ws;
    }
    assert (others + [ws])[..|others|] == others;
    UpdateTwice(channels, channel, others + [ws], others);
    AddThenRemove(users, ws, username);
    AddThenRemove(joined, ws, channel);
  }

  class Hub {
    var channels: map<string, seq<Conn>>
    var users: map<Conn, string>
    /** The channel each live connection's endpoint was opened on (the endpoint's `channel` argument). */
    ghost var joined: map<Conn, string>

    /** The tables are consistent: see `Consistent`. */
    ghost predicate Valid()
      reads this
    {
      Consistent(channels, users, joined)
    }

    constructor ()
      ensures Valid()
      ensures channels == map[] && users == map[] && joined == map[]
    {
      channels := map[];
      users := map[];
      joined := map[];
    }

    /** `broadcast`: one send of `message` to each connection of the channel, in list order, sender included. */
    method Broadcast(channel: string, message: string) returns (out: seq<Delivery>)
      ensures out == FanOut(Members(channels, channel), message)
      ensures forall ws :: ws in Members(channels, channel) <==> Delivery(ws, message) in out
    {
      var members := if channel in channels then channels[channel] else [];
      out := [];
      for i := 0 to |members|
        invariant out == FanOut(members[..i], message)
      {
        assert members[..i + 1][..i] == members[..i];
        out := out + [Delivery(members[i], message)];
      }
      assert members[..|members|] == members;
    }

    /** A connection opens: it is recorded, appended to its channel, and the channel (itself included) is told. */
    method Join(ws: Conn, channel: string, username: string) returns (out: seq<Delivery>)
      requires Valid() && ws !in users
      modifies this
      ensures Valid()
      ensures users == old(users)[ws := username] && joined == old(joined)[ws := channel]
      ensures channels == old(channels)[channel := Members(old(channels), channel) + [ws]]
      ensures out == FanOut(channels[channel], JoinNotice(username))
      ensures Delivery(ws, JoinNotice(username)) in out
    {
      JoinConsistent(channels, users, joined, ws, channel, username);
      users := users[ws := username];
      // a channel seen for the first time starts as an empty list
      var list := if channel in channels then channels[channel] else [];
      channels := channels[channel := list + [ws]];
      joined := joined[ws := channel];
      out := Broadcast(channel, JoinNotice(username));
    }

    /** A frame arrives: it is relayed as the sender's chat line to the whole channel, the sender included. */
    method Receive(ws: Conn, channel: string, username: string, data: string) returns (out: seq<Delivery>)
      ensures out == FanOut(Members(channels, channel), ChatLine(username, data))
      ensures Valid() && ws in joined && joined[ws] == channel ==> Delivery(ws, ChatLine(username, data)) in out
    {
      out := Broadcast(channel, ChatLine(username, data));
    }

    /** The `while True` relay loop of one endpoint, over the frames it receives. */
    method RelayFrames(ws: Conn, channel: string, username: string, frames: seq<string>) returns (out: seq<Delivery>)
      ensures out == RelayAll(Members(channels, channel), username, frames)
    {
      out := [];
      for i := 0 to |frames|
        invariant out == RelayAll(Members(channels, channel), username, frames[..i])
      {
        var sent := Receive(ws, channel, username, frames[i]);
        assert frames[..i + 1][..i] == frames[..i];
        out := out + sent;
      }
      assert frames[..|frames|] == frames;
    }

    /**
     * The connection drops: it leaves its channel list first, so the leave
     * notice reaches every remaining member but not the leaver; its user
     * entry goes last. An emptied channel keeps its (empty) entry.
     */
    method Disconnect(ws: Conn, channel: string, username: string) returns (out: seq<Delivery>)
      requires Valid() && ws in joined && joined[ws] == channel && ws in users && users[ws] == username
      modifies this
      ensures Valid()
      ensures channel in channels
      ensures channels == old(channels)[channel := RemoveFirst(old(channels)[channel], ws)]
      ensures users == old(users) - {ws} && joined == old(joined) - {ws}
      ensures out == FanOut(channels[channel], LeaveNotice(username))
      ensures forall c :: Delivery(c, LeaveNotice(username)) in out <==> c in old(channels)[channel] && c != ws
    {
      LeaveConsistent(channels, users, joined, ws, channel);
      channels := channels[channel := RemoveFirst(channels[channel], ws)];
      out := Broadcast(channel, LeaveNotice(username));
      users := users - {ws};
      joined := joined - {ws};
    }

    /**
     * One whole `websocket_endpoint` run, with no other connection acting
     * meanwhile: join, relay each frame, disconnect. The tables end as they
     * began, except that a channel met for the first time keeps an empty
     * entry.
     */
    method Endpoint(ws: Conn, channel: string, username: string, frames: seq<string>) returns (out: seq<Delivery>)
      requires Valid() && ws !in users
      modifies this
      ensures Valid()
      ensures channels == old(channels)[channel := Members(old(channels), channel)]
      ensures users == old(users) && joined == old(joined)
      ensures out == FanOut(Members(old(channels), channel) + [ws], JoinNotice(username))
                   + RelayAll(Members(old(channels), channel) + [ws], username, frames)
                   + FanOut(Members(old(channels), channel), LeaveNotice(username))
    {
      var others := Members(channels, channel);
      JoinThenLeave(channels, users, joined, ws, channel, username);
      out := Join(ws, channel, username);
      var relayed := RelayFrames(ws, channel, username, frames);
      out := out + relayed;
      var left := Disconnect(ws, channel, username);
      out := out + left;
    }

    /**
     * A `websocket_endpoint` run that an exception other than
     * `WebSocketDisconnect` ends after `frames` and after the last complete
     * broadcast (a frame that is not text, say): the leave step never runs,
     * so the connection stays listed in its channel and in `users`, and
     * later broadcasts still go to it.
     */
    method EndpointAborted(ws: Conn, channel: string, username: string, frames: seq<string>) returns (out: seq<Delivery>)
      requires Valid() && ws !in users
      modifies this
      ensures Valid()
      ensures channels == old(channels)[channel := Members(old(channels), channel) + [ws]]
      ensures users == old(users)[ws := username] && joined == old(joined)[ws := channel]
      ensures ws in channels[channel] && ws in users
      ensures out == FanOut(Members(old(channels), channel) + [ws], JoinNotice(username))
                   + RelayAll(Members(old(channels), channel) + [ws], username, frames)
    {
      out := Join(ws, channel, username);
      var relayed := RelayFrames(ws, channel, username, frames);
      out := out + relayed;
    }
  }
}

=== FILE: wire.dfy ===
/**
 * What both servers and the client share: connections as opaque ids, the
 * record of one text frame handed to one connection, and the
 * "<name>: <body>" chat line format.
 */
module Wire {
  import opened Wrappers

  /** A connection (a `WebSocket` or a `socket` object), known only by its identity. */
  type Conn = nat

  /** One send: `text` handed to connection `to`. */
  datatype Delivery = Delivery(to: Conn, text: string)

  /** One send of `text` to each connection of `members`, in list order. */
  function FanOut(members: seq<Conn>, text: string): (out: seq<Delivery>)
    ensures |out| == |members|
    ensures forall i :: 0 <= i < |members| ==> out[i] == Delivery(members[i], text)
  {
    if members == [] then []
    else FanOut(members[..|members| - 1], text) + [Delivery(members[|members| - 1], text)]
  }

  /** The members a send reaches when the sends to `broken` fail, in list order. */
  function Surviving(members: seq<Conn>, broken: set<Conn>): (r: seq<Conn>)
    ensures forall c :: multiset(r)[c] == if c in broken then 0 else multiset(members)[c]
  {
    if members == [] then []
    else
      var last := members[|members| - 1];
      assert members == members[..|members| - 1] + [last];
      Surviving(members[..|members| - 1], broken) + (if last in broken then [] else [last])
  }

  /** The sends for one more member: one more delivery, unless that member's send fails. */
  lemma FanOutSurvivingStep(members: seq<Conn>, broken: set<Conn>, text: string, i: nat)
    requires i < |members|
    ensures FanOut(Surviving(members[..i + 1], broken), text)
         == FanOut(Surviving(members[..i], broken), text) + (if members[i] in broken then [] else [Delivery(members[i], text)])
  {
    assert members[..i + 1][..i] == members[..i];
    var r := Surviving(members[..i], broken);
    if members[i] !in broken {
      assert (r + [members[i]])[..|r|] == r;
    }
  }

  /** A surviving member is reached even when members before it in the list are broken. */
  lemma SurvivorReached(members: seq<Conn>, broken: set<Conn>, text: string, i: nat)
    requires i < |members| && members[i] !in broken
    ensures Delivery(members[i], text) in FanOut(Surviving(members, broken), text)
  {
    var r := Surviving(members, broken);
    assert members[i] in multiset(members);
    assert members[i] in multiset(r);
    var k :| 0 <= k < |r| && r[k] == members[i];
    assert FanOut(r, text)[k] == Delivery(members[i], text);
  }

  /** The line a user's message travels as: `f"{name}: {body}"`. */
  function ChatLine(name: string, body: string): (line: string)
    ensures |line| == |name| + 2 + |body|
    ensures line[..|name|] == name && SeparatorAt(line, |name|) && line[|name| + 2..] == body
  {
    name + ": " + body
  }

  /** There is a ": " in `s` starting at `i`. */
  predicate SeparatorAt(s: string, i: int) {
    0 <= i && i + 1 < |s| && s[i] == ':' && s[i + 1] == ' '
  }

  predicate NoSeparator(s: string) {
    forall i :: 0 <= i < |s| ==> !SeparatorAt(s, i)
  }

  /** The position of the first ": " in `s`. */
  function FindSeparator(s: string): (k: Option<nat>)
    ensures k.Some? ==> SeparatorAt(s, k.value) && NoSeparator(s[..k.value + 1])
    decreases |s|
  {
    if |s| < 2 then None
    else if s[0] == ':' && s[1] == ' ' then Some(0)
    else
      match FindSeparator(s[1..])
      case None => None
      case Some(k) =>
        assert SeparatorAt(s, k + 1);
        NoSeparatorExtend(s, k + 2);
        Some(k + 1)
  }

  /** A prefix free of ": " stays free of it when one character that does not start a ": " is put before it. */
  lemma NoSeparatorExtend(s: string, n: nat)
    requires 1 <= n <= |s| && !SeparatorAt(s, 0) && NoSeparator(s[1..][..n - 1])
    ensures NoSeparator(s[..n])
  {
    var p := s[..n];
    forall i | 0 <= i < |p| ensures !SeparatorAt(p, i) {
      if 1 <= i {
        assert !SeparatorAt(s[1..][..n - 1], i - 1);
      }
    }
  }

  /** Reads a chat line back as its sender name and body, splitting at the first ": ". */
  function SplitChatLine(line: string): Option<(string, string)> {
    match FindSeparator(line)
    case None => None
    case Some(k) => Some((line[..k], line[k + 2..]))
  }

  lemma {:induction false} FindSeparatorAfterName(name: string, body: string)
    requires NoSeparator(name)
    ensures FindSeparator(name + ": " + body) == Some(|name|)
    decreases |name|
  {
    var s := name + ": " + body;
    if name == [] {
      assert s[0] == ':' && s[1] == ' ';
    } else {
      assert !(s[0] == ':' && s[1] == ' ') by {
        if |name| >= 2 {
          assert !SeparatorAt(name, 0);
        }
      }
      assert NoSeparator(name[1..]) by {
        forall i | 0 <= i < |name| - 1 ensures !SeparatorAt(name[1..], i) {
          assert !SeparatorAt(name, i + 1);
        }
      }
      assert s[1..] == name[1..] + ": " + body;
      FindSeparatorAfterName(name[1..], body);
    }
  }

  /** A sender name without ": " in it is recovered, with the body, from its chat line. */
  lemma ChatLineRoundTrip(name: string, body: string)
    requires NoSeparator(name)
    ensures SplitChatLine(ChatLine(name, body)) == Some((name, body))
  {
    FindSeparatorAfterName(name, body);
    var s := ChatLine(name, body);
    assert s[..|name|] == name;
    assert s[|name| + 2..] == body;
  }
}

=== FILE: wrappers.dfy ===
/** The optional value used where the Python code has `None` or raises. */
module Wrappers {
  datatype Option<+T> = None | Some(value: T)
}
